=== FILE: README.md ===
# Action generator commands: naming and stub substitution

This project models the naming and substitution core of the two Artisan
generator commands of the `ceceply/action` Laravel package:

- `make:iaction` (`InterfaceActionMakeCommand`) writes an action interface.
  It derives the action verb from the class name or from `--action`. It builds
  the `use` line and the model parameter from `--model`, and adds an
  `array $inputs` parameter for `create` and `update` actions. Then it
  substitutes three placeholder families into the stub, in order: imports,
  action, parameters.
- `make:action` (`ActionMakeCommand`) extends it to write the action class.
  It derives the interface name: `Orders/CreateOrder` becomes
  `Orders\Contracts\` followed by the plural of every word of `CreateOrder`.
  `--interface` overrides that name. The command adds the interface's `use`
  line and substitutes `implements <short name>` into the class stub. Its
  `handle` asks `make:iaction` for the interface, unless `--without-interface`
  is given, and turns `--force-both` into `--force`.

There are three files:

- `php_string.dfy` models the PHP and Laravel string built-ins the commands
  use.
  - `trim` strips the default set ` \t\n\r\0\x0B`.
  - PHP truthiness treats `""` and `"0"` as false.
  - `explode`, `implode` and `last` are modelled, together with the text
    before and after the last separator.
  - `Str::ucsplit` splits before each upper-case letter.
  - `strtolower` is modelled.
  - `str_replace` with an array of needles is a left-to-right fold. Each
    needle does one scan for non-overlapping matches and never rescans its
    own output. Later needles do see the output of earlier ones.

  Each built-in is a specification function with its round-trip and shape
  lemmas. The `str_replace` scan is also a loop method proved against that
  function.
- `interface_action_make.dfy` models the `make:iaction` command.
- `action_make.dfy` models the `make:action` command. `handle` is a method
  over a `ConsoleInput` object whose `force` option it may switch on.

The framework functions the commands call are fields of a `Framework` value.
These are `Str::plural`, `Str::singular`, `qualifyModel` and `qualifyClass`.
No axiom about them is assumed. Most lemmas therefore hold for any inflector
and any namespace qualification. Three lemmas carry hypotheses about what the
inflector returns for particular words: `TwoWordClassDefaults`,
`LaterStepsSeeEarlierOutput` and `SubcommandActionAgrees`.

Four behaviours of the code are easy to miss:

- **Interface separator.** The default interface name joins the segments with
  `\`, so `Orders/CreateOrder` gives `Orders\Contracts\…`: every `/` of the
  directory part becomes `\`.
- **The `create`/`update` test.** It is case-sensitive. It sees the trimmed
  `--action` value before lower-casing, so `--action=Create` adds no
  `array $inputs`, although the substituted action text is
  `singular("create")`.
- **Substring replacement.** Placeholders are replaced as substrings, not as
  whole tokens. `DummyImport` is tried before `DummyImports`, so a
  `DummyImports` token becomes the import block followed by a stray `s`.
  Later aliases and later steps rescan text that earlier ones inserted.
- **`--interface` truthiness.** The option is checked before it is trimmed, so
  `--interface=" "` yields an empty interface name. A blank `--action` falls
  back to the default instead.

## Model

| member | source | states |
|---|---|---|
| PhpString.Lower | src/Console/Commands/InterfaceActionMakeCommand.php:175 | `strtolower` keeps the length and lower-cases each character |
| PhpString.LowerIsLowerCase | src/Console/Commands/InterfaceActionMakeCommand.php:175 | the result has no upper-case letter; lower-casing twice is lower-casing once |
| PhpString.TrimIsInnerSlice | src/Console/Commands/InterfaceActionMakeCommand.php:190-203 | `trim` returns a contiguous slice of its input; everything cut off on either side is whitespace |
| PhpString.TrimIsTrimmed | src/Console/Commands/InterfaceActionMakeCommand.php:190-203 | the result of `trim` neither starts nor ends with whitespace |
| PhpString.TrimIdempotent | src/Console/Commands/InterfaceActionMakeCommand.php:190-203 | trimming a trimmed value changes nothing |
| PhpString.Explode | src/Console/Commands/ActionMakeCommand.php:148 | `explode` yields at least one piece, and no piece holds the separator |
| PhpString.ExplodeLast | src/Console/Commands/ActionMakeCommand.php:121 | `last(explode(sep, s))` is exactly the text after the last separator |
| PhpString.ImplodeExplode | src/Console/Commands/ActionMakeCommand.php:148-151 | round trip: imploding the pieces of `explode` with the same separator gives back the input |
| PhpString.ExplodeImplode | src/Console/Commands/ActionMakeCommand.php:148-151 | round trip: exploding a non-empty list of separator-free pieces imploded with the separator gives back the pieces |
| PhpString.ImplodeExplodeInit | src/Console/Commands/ActionMakeCommand.php:148-151 | replacing the last piece and re-joining with another glue keeps the directory part, with each separator turned into the glue |
| PhpString.UcSplit | src/Console/Commands/ActionMakeCommand.php:149 | `Str::ucsplit` pieces concatenate back to the input; each is a word with upper-case only at its start; there are none only for empty input |
| PhpString.UcSplitConcat | src/Console/Commands/ActionMakeCommand.php:149 | round trip: splitting the concatenation of properly split words gives back those words |
| PhpString.StrReplaceAbsent | src/Console/Commands/InterfaceActionMakeCommand.php:84-88 | array `str_replace` is the identity when no needle occurs |
| PhpString.StrReplaceToken | src/Console/Commands/InterfaceActionMakeCommand.php:84-88 | a subject that is exactly one needle becomes exactly the replacement, when no earlier needle occurs in it and no later needle occurs in the replacement |
| PhpString.ScanReplaceAll | src/Console/Commands/InterfaceActionMakeCommand.php:120 | the scanning loop computes the one-needle replacement function |
| PhpString.ScanReplace | src/Console/Commands/InterfaceActionMakeCommand.php:84-88 | one scan per needle, in list order, computes the array `str_replace` function |
| InterfaceActionMake.DefaultActionOfBaseName | src/Console/Commands/InterfaceActionMakeCommand.php:141-146 | the default action is `singular(lower(first ucsplit word))` of the text after the last `/` |
| InterfaceActionMake.DefaultActionFirstWord | src/Console/Commands/InterfaceActionMakeCommand.php:141-146 | only the first word of the last segment matters |
| InterfaceActionMake.DefaultActionSameBase | src/Console/Commands/InterfaceActionMakeCommand.php:141-146 | names with the same last segment have the same default action |
| InterfaceActionMake.DefaultActionExample | src/Console/Commands/InterfaceActionMakeCommand.php:141-146 | `Orders/CreateOrder` gives `singular("create")` |
| InterfaceActionMake.ActionOverrideWins | src/Console/Commands/InterfaceActionMakeCommand.php:130-133 | a truthy trimmed `--action` is the action whatever the class name, and it is trimmed |
| InterfaceActionMake.ActionDefaultUsed | src/Console/Commands/InterfaceActionMakeCommand.php:130-133 | without a truthy `--action`, the action is `singular(lower(w))` for the first `ucsplit` word `w` of the text after the class name's last `/` |
| InterfaceActionMake.TwoWordDefaultAction | src/Console/Commands/InterfaceActionMakeCommand.php:130-183 | for a two-word class name and no options, the action is the singular of the lower-cased first word, `array $inputs` is the only possible parameter and there are no imports |
| InterfaceActionMake.GetImports | src/Console/Commands/InterfaceActionMakeCommand.php:98-107 | the method builds the import list of the specification function |
| InterfaceActionMake.ImportsShape | src/Console/Commands/InterfaceActionMakeCommand.php:98-107 | one `use` line of the qualified model exactly when the model input is truthy, otherwise none |
| InterfaceActionMake.GetActionParameters | src/Console/Commands/InterfaceActionMakeCommand.php:169-183 | the method builds the parameter list of the specification function |
| InterfaceActionMake.ActionParametersShape | src/Console/Commands/InterfaceActionMakeCommand.php:169-183 | the model parameter comes first, when the model is truthy; `array $inputs` is present exactly when the action is `create` or `update`; there is no other parameter |
| InterfaceActionMake.ModelParameterShape | src/Console/Commands/InterfaceActionMakeCommand.php:173-176 | the model parameter is the short class name after the last `\`, then ` $` and its lower-cased form |
| InterfaceActionMake.ModelParameterNotInputs | src/Console/Commands/InterfaceActionMakeCommand.php:173-179 | the model parameter is never `array $inputs` |
| InterfaceActionMake.CapitalisedOverrideTakesNoInputs | src/Console/Commands/InterfaceActionMakeCommand.php:178-180 | `--action=Create` adds no `array $inputs`, because the test is case-sensitive |
| InterfaceActionMake.RetrimmedModelAgrees | src/Console/Commands/InterfaceActionMakeCommand.php:200-203 | feeding the trimmed model input back as `--model` gives the same model input and the same imports |
| InterfaceActionMake.RetrimmedActionAgrees | src/Console/Commands/InterfaceActionMakeCommand.php:190-193 | feeding the resolved action back as `--action`, with the trimmed model as `--model`, gives the same action and the same parameters whenever that action is truthy and trimmed, whether it came from an override or from the class name |
| InterfaceActionMake.BuildClassWith | src/Console/Commands/InterfaceActionMakeCommand.php:65-73 | the chained replacements compute imports, then action, then parameters, over the stub |
| InterfaceActionMake.BuildClass | src/Console/Commands/InterfaceActionMakeCommand.php:65-73 | `buildClass` of `make:iaction` is that pipeline with its own imports |
| InterfaceActionMake.ReplaceImportsIdentity | src/Console/Commands/InterfaceActionMakeCommand.php:82-91 | a stub without import aliases is left unchanged |
| InterfaceActionMake.ReplaceActionIdentity | src/Console/Commands/InterfaceActionMakeCommand.php:116-123 | a stub without action aliases is left unchanged |
| InterfaceActionMake.ReplaceParametersIdentity | src/Console/Commands/InterfaceActionMakeCommand.php:155-162 | a stub without parameter aliases is left unchanged |
| InterfaceActionMake.ImportAliasExpands | src/Console/Commands/InterfaceActionMakeCommand.php:84-88 | each lone import alias except `DummyImports` becomes the newline-framed import block, when no later import alias occurs in that block |
| InterfaceActionMake.DummyImportsLeavesS | src/Console/Commands/InterfaceActionMakeCommand.php:85 | `DummyImports` becomes the import block followed by `s`, when no import alias after `DummyImport` occurs in that text |
| InterfaceActionMake.EmptyImportsDeleteAliases | src/Console/Commands/InterfaceActionMakeCommand.php:84-88 | with no imports, every lone alias is deleted, except that `DummyImports` leaves `s` |
| InterfaceActionMake.ActionAliasSubstituted | src/Console/Commands/InterfaceActionMakeCommand.php:116-123 | each lone action alias becomes `singular(lower(action))`, when no later action alias occurs in that text |
| InterfaceActionMake.ParameterAliasSubstituted | src/Console/Commands/InterfaceActionMakeCommand.php:155-162 | each lone parameter alias becomes the parameters joined by `, `, with no remnant, when no later parameter alias occurs in that text |
| InterfaceActionMake.LaterStepsSeeEarlierOutput | src/Console/Commands/InterfaceActionMakeCommand.php:69-72 | an import line reading `DummyAction` is replaced by the action in the next step, when the inflector's `singular(lower(action))` holds no `{` |
| ActionMake.DefaultInterfaceShape | src/Console/Commands/ActionMakeCommand.php:146-152 | the default interface is the directory part, with `/` as `\`, then `Contracts\` and the pluralised words of the last segment |
| ActionMake.DefaultInterfaceNoDirectory | src/Console/Commands/ActionMakeCommand.php:146-152 | without `/`, the default interface is `Contracts\` and the pluralised words |
| ActionMake.DefaultInterfaceTwoWords | src/Console/Commands/ActionMakeCommand.php:146-152 | for a two-word last segment, both words are pluralised |
| ActionMake.DefaultInterfaceExample | src/Console/Commands/ActionMakeCommand.php:146-152 | `CreateOrder` gives `Contracts\` + plural(`Create`) + plural(`Order`) |
| ActionMake.DefaultInterfaceDirectoryExample | src/Console/Commands/ActionMakeCommand.php:146-152 | `Orders/CreateOrder` gives `Orders\Contracts\` + plural(`Create`) + plural(`Order`) |
| ActionMake.InterfaceNameChoice | src/Console/Commands/ActionMakeCommand.php:131-138 | a truthy raw `--interface` is used trimmed, whatever the class name, and has no surrounding whitespace; otherwise the name is the class name's directory part with `\` for `/`, then `Contracts\` and the pluralised words of its last segment |
| ActionMake.BlankInterfaceOverride | src/Console/Commands/ActionMakeCommand.php:131-138 | `--interface=" "` gives an empty interface name, while `--action=" "` is falsy |
| ActionMake.InterfaceReplaceShape | src/Console/Commands/ActionMakeCommand.php:119-124 | with an interface, the clause is `implements` and the `\`-free text after the last `\`; without one, it is empty |
| ActionMake.GetImports | src/Console/Commands/ActionMakeCommand.php:89-100 | the method builds the parent's list plus the interface line of the specification function |
| ActionMake.ImportsExtendParent | src/Console/Commands/ActionMakeCommand.php:89-100 | the parent's imports stay a prefix; exactly one interface `use` line is appended, and only with an interface |
| ActionMake.BuildClass | src/Console/Commands/ActionMakeCommand.php:77-82 | the class is the parent pipeline with this command's imports, then `replaceInterface` |
| ActionMake.ReplaceInterfaceIdentity | src/Console/Commands/ActionMakeCommand.php:109-112 | a stub without interface aliases is left unchanged |
| ActionMake.InterfaceAliasSubstituted | src/Console/Commands/ActionMakeCommand.php:109-112 | each lone interface alias becomes the interface clause, when no later interface alias occurs in the clause |
| ActionMake.ClassRenderOnlyAddsInterface | src/Console/Commands/ActionMakeCommand.php:77-82 | with no interface alias left after the parent pipeline, the class is that pipeline's output |
| ActionMake.Handle | src/Console/Commands/ActionMakeCommand.php:50-67 | the interface command is requested exactly when an interface is wanted, with the interface name, action, model and `--force-both`; `--force` ends up set when it or `--force-both` was given |
| ActionMake.SubcommandImportsAgree | src/Console/Commands/ActionMakeCommand.php:52-59 | the interface command derives the same model input and the same model import (the parent's `getImports`) as the class |
| ActionMake.SubcommandActionAgrees | src/Console/Commands/ActionMakeCommand.php:52-59 | the interface command derives the same action and parameters as the class whenever the action passed to it is truthy and trimmed, with or without `--action` |
| ActionMake.OverrideSubcommandActionAgrees | src/Console/Commands/ActionMakeCommand.php:52-59 | with a truthy `--action`, the interface command always derives the same action and parameters as the class |
| ActionMake.TwoWordClassDefaults | src/Console/Commands/ActionMakeCommand.php:119-152 | for a two-word class name and no options, when the inflector's plurals of the two words hold no `\`: the interface is the directory part with `\` for `/`, then `Contracts\` and the pluralised words, the clause implements the pluralised words, and the only import is the interface's |
| ActionMake.WithoutInterfaceCase | src/Console/Commands/ActionMakeCommand.php:89-124 | with `--without-interface`, whatever the other options, the clause is empty and the imports are the parent's alone, so there is no interface import |

## Left out

- `parent::buildClass`, `getStub`, `getDefaultNamespace` and `parent::handle` are Laravel's `GeneratorCommand` code. They read the stub, substitute the namespace and class, and write the file. That code is not part of this model, and the stub reaching the modelled substitutions is an arbitrary string.
- `$this->call` is not executed: `Handle` returns the options it would pass to `make:iaction`, and `SubcommandImportsAgree` / `SubcommandActionAgrees` state what that command derives from them.
- `guessModel()` and the `--guess-model` option are left out. `handle` evaluates `$this->guessModel()` while building the arguments for `make:iaction` (ActionMakeCommand.php:57), but neither command file defines that method, and `make:iaction` declares no such option. Unless code outside these two files supplies the method, PHP stops with an undefined-method error on that path before `make:iaction` is called. `Handle` models the call as it would be made if the method existed, without the `--guess-model` value. Even then, `make:iaction` would receive a `--guess-model` option it does not declare; Symfony's console input normally rejects such an option, which would fail the call a second time. That input-binding code is not part of this model.
- `getNameInput` is Laravel code. A command's name is taken as the trimmed argument it returns, so the name passed to `make:iaction` is trimmed again (`CallInput`).
- `Str::plural`, `Str::singular`, `qualifyModel` and `qualifyClass` are uninterpreted parameters (the `Framework` fields).
- PhpString.UcSplit: splits before ASCII upper-case letters only, while `Str::ucsplit` splits before any Unicode upper-case letter (`\p{Lu}`).
- PhpString.Lower: lower-cases ASCII only, while `Str::lower` uses `mb_strtolower`.
- InterfaceActionMake.DefaultAction: requires a non-empty last segment. For an empty one, PHP reads element 0 of an empty `ucsplit` result and the command stops with an error, which is not modelled.
- ActionMake.Handle: requires the same non-empty last segment when an interface is wanted, for the same reason.
- ActionMake.SubcommandActionAgrees: without `--action`, it needs the inflector's singular of the first word to be a truthy string with no surrounding whitespace. `Str::singular` is a parameter of the model, so this cannot be derived.
- The fluent `return $this` of `replaceImports` and `replaceAction` is not modelled. The by-reference stub is threaded through `BuildClassWith` explicitly instead.
- PHP's deprecation notice for `trim(null)` is not modelled. An absent option reads as `""`.
- The command signatures, descriptions and `ActionServiceProvider`'s registration of the commands are not modelled.

=== FILE: action_make.dfy ===
/**
 * The `make:action` generator command (ActionMakeCommand). It extends
 * `make:iaction`: it derives an interface name from the class name (or
 * takes `--interface`), asks `make:iaction` to generate that interface
 * unless `--without-interface` is given, adds the interface import, and
 * substitutes an `implements` clause into the class stub.
 */
module ActionMake {
  import opened Wrappers
  import opened PhpString
  import IA = InterfaceActionMake

  /**
   * The input of `make:action`: the inherited `name`, `--action` and
   * `--model`, plus `--interface` (raw, `None` when absent),
   * `--without-interface` and `--force-both`. `--force` lives in
   * `ConsoleInput`, because `handle` changes it.
   */
  datatype ClassInput = ClassInput(
    base: IA.Input,
    interface: Option<string>,
    withoutInterface: bool,
    forceBoth: bool)

  const InterfaceAliases: seq<string> := ["DummyInterface", "{{ interface }}", "{{interface}}"]

  /** `withInterface`. */
  predicate WithInterface(ci: ClassInput) { !ci.withoutInterface }

  /** `forceBoth`. */
  predicate ForceBoth(ci: ClassInput) { ci.forceBoth }

  // ---------------------------------------------------------------------
  // The interface name
  // ---------------------------------------------------------------------

  /**
   * `getDefaultInterface`: split on `/`, rewrite the last segment as
   * `Contracts\` followed by the plural of each of its upper-case-split
   * words, and join the segments with `\`.
   */
  function DefaultInterface(fw: IA.Framework, cls: string): string {
    var a := Explode('/', cls);
    Implode("\\", a[..|a| - 1] + ["Contracts\\" + ConcatMap(fw.plural, UcSplit(Last(a)))])
  }

  /**
   * The default interface keeps the directory part of the class name, with
   * every `/` turned into `\`, and replaces the last segment by
   * `Contracts\` and the pluralised words of that segment.
   */
  lemma DefaultInterfaceShape(fw: IA.Framework, cls: string)
    ensures DefaultInterface(fw, cls)
            == Translate(DirName('/', cls), '/', '\\') + "Contracts\\" + ConcatMap(fw.plural, UcSplit(BaseName('/', cls)))
  {
    var a := Explode('/', cls);
    var y := "Contracts\\" + ConcatMap(fw.plural, UcSplit(Last(a)));
    ImplodeExplodeInit('/', '\\', cls, y);
    ExplodeLast('/', cls);
  }

  /** Without a `/`, the default interface is `Contracts\` and the pluralised words. */
  lemma DefaultInterfaceNoDirectory(fw: IA.Framework, cls: string)
    requires '/' !in cls
    ensures DefaultInterface(fw, cls) == "Contracts\\" + ConcatMap(fw.plural, UcSplit(cls))
  {
    DirBaseOfJoined('/', "", cls);
    assert "" + cls == cls;
    DefaultInterfaceShape(fw, cls);
  }

  /** A class name made of two words `a` and `b`, after an optional directory part `dir`. */
  lemma DefaultInterfaceTwoWords(fw: IA.Framework, dir: string, a: string, b: string)
    requires IsWord(a) && IsWord(b) && IsUpper(b[0]) && '/' !in a + b
    requires dir == "" || Last(dir) == '/'
    ensures DefaultInterface(fw, dir + a + b)
            == Translate(dir, '/', '\\') + "Contracts\\" + (fw.plural(a) + fw.plural(b))
  {
    var cls := dir + (a + b);
    assert dir + a + b == cls;
    DirBaseOfJoined('/', dir, a + b);
    UcSplitTwoWords(a, b);
    ConcatMapTwo(fw.plural, a, b);
    DefaultInterfaceShape(fw, cls);
  }

  /** Every word is pluralised, not just the last: `CreateOrder` gives `Contracts\` + plural(Create) + plural(Order). */
  lemma DefaultInterfaceExample(fw: IA.Framework, a: string, b: string)
    requires a == "Create" && b == "Order"
    ensures DefaultInterface(fw, a + b) == "Contracts\\" + (fw.plural("Create") + fw.plural("Order"))
  {
    DefaultInterfaceTwoWords(fw, "", a, b);
    assert "" + a + b == a + b;
  }

  /** The directory part is kept, with `\\` for `/`, in front of `Contracts\\`. */
  lemma DefaultInterfaceDirectoryExample(fw: IA.Framework, dir: string, a: string, b: string)
    requires dir == "Orders/" && a == "Create" && b == "Order"
    ensures DefaultInterface(fw, dir + a + b)
            == "Orders\\Contracts\\" + (fw.plural("Create") + fw.plural("Order"))
  {
    DefaultInterfaceTwoWords(fw, dir, a, b);
    assert Translate(dir, '/', '\\') == "Orders\\";
    assert "Orders\\" + "Contracts\\" == "Orders\\Contracts\\";
  }

  /**
   * `getInterfaceName`: the raw `--interface` value is checked for
   * truthiness BEFORE it is trimmed; a truthy value is returned trimmed.
   */
  function InterfaceName(fw: IA.Framework, ci: ClassInput): string {
    if Truthy(IA.OptionText(ci.interface)) then Trim(IA.OptionText(ci.interface))
    else DefaultInterface(fw, ci.base.name)
  }

  /**
   * A truthy `--interface` overrides whatever the class name, and comes out
   * with no surrounding whitespace; otherwise the name is the class name's
   * directory part with `\` for `/`, then `Contracts\` and the pluralised
   * words of its last segment.
   */
  lemma InterfaceNameChoice(fw: IA.Framework, ci: ClassInput, other: string)
    ensures Truthy(IA.OptionText(ci.interface)) ==>
              InterfaceName(fw, ci) == Trim(ci.interface.value) &&
              IsTrimmed(InterfaceName(fw, ci)) &&
              InterfaceName(fw, ci) == InterfaceName(fw, ci.(base := ci.base.(name := other)))
    ensures var n := ci.base.name;
            !Truthy(IA.OptionText(ci.interface)) ==>
              InterfaceName(fw, ci)
              == Translate(DirName('/', n), '/', '\\') + "Contracts\\" + ConcatMap(fw.plural, UcSplit(BaseName('/', n)))
  {
    if Truthy(IA.OptionText(ci.interface)) {
      TrimIsTrimmed(IA.OptionText(ci.interface));
    } else {
      DefaultInterfaceShape(fw, ci.base.name);
    }
  }

  /**
   * Because the interface option is checked before trimming, `--interface=" "`
   * yields an empty interface name, whereas `--action=" "` falls back to the
   * default action.
   */
  lemma BlankInterfaceOverride(fw: IA.Framework, ci: ClassInput)
    requires ci.interface == Some(" ") && ci.base.action == Some(" ")
    ensures InterfaceName(fw, ci) == ""
    ensures !Truthy(IA.ActionInput(ci.base))
  {
    var w := ci.interface.value;
    assert Trim(w) == "" by {
      assert IsTrimmable(w[0]) && w[1..] == "";
      assert TrimStart(w) == TrimStart(w[1..]);
    }
    assert Truthy(IA.OptionText(ci.interface));
    InterfaceNameChoice(fw, ci, "");
    assert IA.ActionInput(ci.base) == Trim(w);
  }

  // ---------------------------------------------------------------------
  // The implements clause and the imports
  // ---------------------------------------------------------------------

  /** `getInterfaceReplace`. */
  function InterfaceReplace(fw: IA.Framework, ci: ClassInput): string {
    var short := Last(Explode('\\', InterfaceName(fw, ci)));
    if WithInterface(ci) then "implements " + short else ""
  }

  /**
   * With an interface the clause is `implements` and the text after the
   * interface name's last `\` (a name without `\`); without, it is empty.
   */
  lemma InterfaceReplaceShape(fw: IA.Framework, ci: ClassInput)
    ensures WithInterface(ci) ==>
              InterfaceReplace(fw, ci) == "implements " + BaseName('\\', InterfaceName(fw, ci)) &&
              '\\' !in BaseName('\\', InterfaceName(fw, ci))
    ensures !WithInterface(ci) ==> InterfaceReplace(fw, ci) == ""
  {
    ExplodeLast('\\', InterfaceName(fw, ci));
  }

  function InterfaceImport(fw: IA.Framework, ci: ClassInput): string {
    "use " + fw.qualifyClass(InterfaceName(fw, ci)) + ";"
  }

  /** `getImports` of `make:action`: the parent's list plus the interface import. */
  function Imports(fw: IA.Framework, ci: ClassInput): seq<string> {
    IA.Imports(fw, ci.base) + (if WithInterface(ci) then [InterfaceImport(fw, ci)] else [])
  }

  /** `getImports`, appending to the inherited list. */
  method GetImports(fw: IA.Framework, ci: ClassInput) returns (imports: seq<string>)
    ensures imports == Imports(fw, ci)
  {
    imports := IA.GetImports(fw, ci.base);
    if WithInterface(ci) {
      var iface := fw.qualifyClass(InterfaceName(fw, ci));
      imports := imports + ["use " + iface + ";"];
    }
  }

  /**
   * The class imports extend the parent's list, which keeps the model
   * import first, by exactly one interface import, and only when an
   * interface is wanted.
   */
  lemma ImportsExtendParent(fw: IA.Framework, ci: ClassInput)
    ensures var parent := IA.Imports(fw, ci.base);
            var imports := Imports(fw, ci);
            |imports| == |parent| + (if WithInterface(ci) then 1 else 0) &&
            imports[..|parent|] == parent
    ensures WithInterface(ci) ==>
              Last(Imports(fw, ci)) == "use " + fw.qualifyClass(InterfaceName(fw, ci)) + ";"
    ensures !WithInterface(ci) ==> Imports(fw, ci) == IA.Imports(fw, ci.base)
    ensures Truthy(IA.ModelInput(ci.base)) ==>
              Imports(fw, ci)[0] == IA.ModelImport(fw, IA.ModelInput(ci.base))
  {
    IA.ImportsShape(fw, ci.base);
  }

  // ---------------------------------------------------------------------
  // Building the class
  // ---------------------------------------------------------------------

  function ReplaceInterface(stub: string, iface: string): string {
    StrReplace(InterfaceAliases, iface, stub)
  }

  /** The class: the parent pipeline with this command's imports, then `replaceInterface`. */
  function ClassRender(fw: IA.Framework, ci: ClassInput, stub: string): string
    requires IA.ActionDefined(ci.base)
  {
    ReplaceInterface(IA.Render(fw, ci.base, Imports(fw, ci), stub), InterfaceReplace(fw, ci))
  }

  /** `buildClass` of `make:action`. */
  method BuildClass(fw: IA.Framework, ci: ClassInput, stub: string) returns (r: string)
    requires IA.ActionDefined(ci.base)
    ensures r == ClassRender(fw, ci, stub)
  {
    var imports := GetImports(fw, ci);
    var s := IA.BuildClassWith(fw, ci.base, imports, stub);
    r := ScanReplace(InterfaceAliases, InterfaceReplace(fw, ci), s);
  }

  /** `replaceInterface` is the identity on a stub holding no interface alias. */
  lemma ReplaceInterfaceIdentity(stub: string, iface: string)
    requires forall k :: 0 <= k < |InterfaceAliases| ==> !Occurs(InterfaceAliases[k], stub)
    ensures ReplaceInterface(stub, iface) == stub
  {
    StrReplaceAbsent(InterfaceAliases, iface, stub);
  }

  /** A lone interface alias becomes the `implements` clause. */
  lemma InterfaceAliasSubstituted(k: nat, iface: string)
    requires k < |InterfaceAliases|
    requires forall j :: k < j < |InterfaceAliases| ==> !Occurs(InterfaceAliases[j], iface)
    ensures ReplaceInterface(InterfaceAliases[k], iface) == iface
  {
    forall j | 0 <= j < k
      ensures !Occurs(InterfaceAliases[j], InterfaceAliases[k])
    {
      MissingCharNotOccurs(InterfaceAliases[j], InterfaceAliases[k], if j == 0 then 'D' else ' ');
    }
    StrReplaceToken(InterfaceAliases, k, iface);
  }

  /**
   * The class differs from the parent pipeline's output only through the
   * interface aliases: with none left in it, the class is that output.
   */
  lemma ClassRenderOnlyAddsInterface(fw: IA.Framework, ci: ClassInput, stub: string)
    requires IA.ActionDefined(ci.base)
    requires forall k :: 0 <= k < |InterfaceAliases| ==>
               !Occurs(InterfaceAliases[k], IA.Render(fw, ci.base, Imports(fw, ci), stub))
    ensures ClassRender(fw, ci, stub) == IA.Render(fw, ci.base, Imports(fw, ci), stub)
  {
    ReplaceInterfaceIdentity(IA.Render(fw, ci.base, Imports(fw, ci), stub), InterfaceReplace(fw, ci));
  }

  // ---------------------------------------------------------------------
  // handle
  // ---------------------------------------------------------------------

  /** The option values `handle` passes to `make:iaction`. */
  datatype InterfaceCall = InterfaceCall(name: string, action: string, model: string, force: bool)

  function InterfaceCallFor(fw: IA.Framework, ci: ClassInput): InterfaceCall
    requires IA.ActionDefined(ci.base)
  {
    InterfaceCall(InterfaceName(fw, ci), IA.GetAction(fw, ci.base), IA.ModelInput(ci.base), ForceBoth(ci))
  }

  /** How `make:iaction` sees the options it is called with; its `getNameInput` trims the name. */
  function CallInput(call: InterfaceCall): IA.Input {
    IA.Input(Trim(call.name), Some(call.action), Some(call.model))
  }

  /** The console input; `handle` may switch `force` on. */
  class ConsoleInput {
    const options: ClassInput
    var force: bool

    constructor (options: ClassInput, force: bool)
      ensures this.options == options && this.force == force
    {
      this.options := options;
      this.force := force;
    }
  }

  /**
   * The flag logic of `handle`: the interface sub-command is requested
   * exactly when an interface is wanted, with `force` equal to
   * `--force-both`; afterwards the class is forced when `--force` or
   * `--force-both` was given, and `force` is never switched off.
   */
  method Handle(fw: IA.Framework, input: ConsoleInput) returns (call: Option<InterfaceCall>)
    requires WithInterface(input.options) ==> IA.ActionDefined(input.options.base)
    modifies input
    ensures call.Some? <==> WithInterface(input.options)
    ensures call.Some? ==> call.value == InterfaceCallFor(fw, input.options)
    ensures call.Some? ==> call.value.force == ForceBoth(input.options)
    ensures input.force == (old(input.force) || ForceBoth(input.options))
  {
    call := None;
    if WithInterface(input.options) {
      call := Some(InterfaceCallFor(fw, input.options));
    }
    if !input.force && ForceBoth(input.options) {
      input.force := true;
    }
  }

  /**
   * The interface sub-command re-trims the model it is given, so it
   * imports the same model as the class.
   */
  lemma SubcommandImportsAgree(fw: IA.Framework, ci: ClassInput)
    requires IA.ActionDefined(ci.base)
    ensures IA.ModelInput(CallInput(InterfaceCallFor(fw, ci))) == IA.ModelInput(ci.base)
    ensures IA.Imports(fw, CallInput(InterfaceCallFor(fw, ci))) == IA.Imports(fw, ci.base)
  {
    IA.RetrimmedModelAgrees(fw, ci.base, CallInput(InterfaceCallFor(fw, ci)));
  }

  /**
   * The interface sub-command derives the same action and the same
   * parameters as the class whenever the action passed to it survives
   * `trim` and is truthy: always for a truthy `--action`
   * (`OverrideSubcommandActionAgrees`), and for a default action when the
   * inflector yields such a string.
   */
  lemma SubcommandActionAgrees(fw: IA.Framework, ci: ClassInput)
    requires IA.ActionDefined(ci.base)
    requires Truthy(IA.GetAction(fw, ci.base)) && IsTrimmed(IA.GetAction(fw, ci.base))
    ensures var sub := CallInput(InterfaceCallFor(fw, ci));
            IA.ActionDefined(sub) &&
            IA.GetAction(fw, sub) == IA.GetAction(fw, ci.base) &&
            IA.ActionParameters(fw, sub) == IA.ActionParameters(fw, ci.base)
  {
    IA.RetrimmedActionAgrees(fw, ci.base, CallInput(InterfaceCallFor(fw, ci)));
  }

  /** With a truthy `--action`, the sub-command's action and parameters are the class's. */
  lemma OverrideSubcommandActionAgrees(fw: IA.Framework, ci: ClassInput)
    requires IA.ActionDefined(ci.base) && Truthy(IA.ActionInput(ci.base))
    ensures var sub := CallInput(InterfaceCallFor(fw, ci));
            IA.ActionDefined(sub) &&
            IA.GetAction(fw, sub) == IA.GetAction(fw, ci.base) &&
            IA.ActionParameters(fw, sub) == IA.ActionParameters(fw, ci.base)
  {
    IA.ActionOverrideWins(fw, ci.base, "");
    SubcommandActionAgrees(fw, ci);
  }

  // ---------------------------------------------------------------------
  // Worked cases
  // ---------------------------------------------------------------------

  /**
   * A class name `dir` + `a` + `b` of two words and no options: the interface
   * is `Contracts\\` and the pluralised words under the directory, the class
   * implements the pluralised words, and the only import is the interface's.
   * (`InterfaceActionMake.TwoWordDefaultAction` gives the action.)
   */
  lemma TwoWordClassDefaults(fw: IA.Framework, ci: ClassInput, dir: string, a: string, b: string)
    requires IsWord(a) && IsWord(b) && IsUpper(b[0]) && '/' !in a + b
    requires dir == "" || Last(dir) == '/'
    requires ci.base.name == dir + a + b && ci.base.model == None
    requires ci.interface == None && !ci.withoutInterface
    requires '\\' !in fw.plural(a) + fw.plural(b)
    ensures InterfaceName(fw, ci) == Translate(dir, '/', '\\') + "Contracts\\" + (fw.plural(a) + fw.plural(b))
    ensures InterfaceReplace(fw, ci) == "implements " + (fw.plural(a) + fw.plural(b))
    ensures Imports(fw, ci) == ["use " + fw.qualifyClass(InterfaceName(fw, ci)) + ";"]
  {
    var iface := Translate(dir, '/', '\\') + "Contracts\\";
    var short := fw.plural(a) + fw.plural(b);
    assert InterfaceName(fw, ci) == iface + short by {
      DefaultInterfaceTwoWords(fw, dir, a, b);
      assert InterfaceName(fw, ci) == DefaultInterface(fw, ci.base.name);
    }
    assert InterfaceReplace(fw, ci) == "implements " + short by {
      InterfaceReplaceShape(fw, ci);
      DirBaseOfJoined('\\', iface, short);
    }
    assert IA.Imports(fw, ci.base) == [] by {
      assert IA.ModelInput(ci.base) == "";
    }
    assert Imports(fw, ci) == [] + [InterfaceImport(fw, ci)];
  }

  /**
   * With `--without-interface` the clause is empty and the imports are the
   * parent's alone, whatever the other options.
   */
  lemma WithoutInterfaceCase(fw: IA.Framework, ci: ClassInput)
    requires ci.withoutInterface
    ensures InterfaceReplace(fw, ci) == ""
    ensures Imports(fw, ci) == IA.Imports(fw, ci.base)
  {
    InterfaceReplaceShape(fw, ci);
    ImportsExtendParent(fw, ci);
  }
}

=== FILE: interface_action_make.dfy ===
/**
 * The `make:iaction` generator command (InterfaceActionMakeCommand): from
 * the class name and the `--action` / `--model` options it derives an
 * action verb, a parameter list and import lines, and substitutes them
 * into the stub text in a fixed order (imports, action, parameters).
 *
 * Laravel's own `GeneratorCommand::buildClass` (namespace and class
 * placeholders) runs before all of this and is not modelled: the stub
 * that reaches these operations is an arbitrary string.
 */
module InterfaceActionMake {
  import opened Wrappers
  import opened PhpString

  /**
   * The framework calls the commands make and whose code is not part of
   * this model: `Str::plural`, `Str::singular` (the inflector) and the
   * generator's `qualifyModel` / `qualifyClass`. They are left
   * uninterpreted: no property of them is used.
   */
  datatype Framework = Framework(
    plural: string -> string,
    singular: string -> string,
    qualifyModel: string -> string,
    qualifyClass: string -> string)

  /**
   * The command input: the `name` argument (as the generator's
   * `getNameInput` hands it over) and the raw `--action` / `--model`
   * option values, `None` when the option was not given.
   */
  datatype Input = Input(name: string, action: Option<string>, model: Option<string>)

  /** Placeholder spellings, in the order `str_replace` tries them. */
  const ImportAliases: seq<string> :=
    ["DummyImport", "DummyImports", "{{ import }}", "{{ imports }}", "{{import}}", "{{imports}}"]
  const ActionAliases: seq<string> := ["DummyAction", "{{ action }}", "{{action}}"]
  const ParameterAliases: seq<string> :=
    ["DummyParameters", "DummyParameter", "{{ parameters }}", "{{ parameter }}", "{{parameters}}", "{{parameter}}"]

  /** An option value as a string: PHP's `trim(null)` is "". */
  function OptionText(o: Option<string>): string {
    match o
    case None => ""
    case Some(s) => s
  }

  /** `getActionInput`: the trimmed `--action` option. */
  function ActionInput(inp: Input): string {
    Trim(OptionText(inp.action))
  }

  /** `getModelInput`: the trimmed `--model` option. */
  function ModelInput(inp: Input): string {
    Trim(OptionText(inp.model))
  }

  // ---------------------------------------------------------------------
  // The action verb
  // ---------------------------------------------------------------------

  /**
   * `getDefaultAction`: the first upper-case-split word of the last `/`
   * segment, lower-cased and singularised. `ucsplit("")[0]` does not
   * exist, so the last segment must not be empty.
   */
  function DefaultAction(fw: Framework, name: string): string
    requires BaseName('/', name) != ""
  {
    var last := Last(Explode('/', name));
    ExplodeLast('/', name);
    fw.singular(Lower(UcSplit(last)[0]))
  }

  /** `getAction` can be evaluated: an override is given, or the default exists. */
  predicate ActionDefined(inp: Input) {
    Truthy(ActionInput(inp)) || BaseName('/', inp.name) != ""
  }

  /** `getAction`: `getActionInput() ?: getDefaultAction(getNameInput())`. */
  function GetAction(fw: Framework, inp: Input): string
    requires ActionDefined(inp)
  {
    if Truthy(ActionInput(inp)) then ActionInput(inp) else DefaultAction(fw, inp.name)
  }

  /** The text `replaceAction` substitutes: `str($name)->lower()->singular()`. */
  function ActionValue(fw: Framework, action: string): string {
    fw.singular(Lower(action))
  }

  /**
   * The default action is the singular of the lower-cased first word of the
   * text after the last `/`; nothing before that `/` matters.
   */
  lemma DefaultActionOfBaseName(fw: Framework, name: string)
    requires BaseName('/', name) != ""
    ensures DefaultAction(fw, name) == fw.singular(Lower(UcSplit(BaseName('/', name))[0]))
  {
    ExplodeLast('/', name);
  }

  /**
   * When the last segment is a word `w` followed by text that starts a new
   * word, the default action is `singular(lower(w))`: only the first word
   * counts.
   */
  lemma DefaultActionFirstWord(fw: Framework, name: string, w: string, t: string)
    requires BaseName('/', name) == w + t
    requires IsWord(w)
    requires t == "" || IsUpper(t[0])
    ensures DefaultAction(fw, name) == fw.singular(Lower(w))
  {
    DefaultActionOfBaseName(fw, name);
    FirstWord(w, t);
  }

  /** Two names with the same last segment have the same default action. */
  lemma DefaultActionSameBase(fw: Framework, a: string, b: string)
    requires BaseName('/', a) == BaseName('/', b) != ""
    ensures DefaultAction(fw, a) == DefaultAction(fw, b)
  {
    DefaultActionOfBaseName(fw, a);
    DefaultActionOfBaseName(fw, b);
  }

  /** `Orders/CreateOrder` has the default action `singular("create")`. */
  lemma DefaultActionExample(fw: Framework, dir: string, a: string, b: string)
    requires dir == "Orders/" && a == "Create" && b == "Order"
    ensures BaseName('/', dir + a + b) != ""
    ensures DefaultAction(fw, dir + a + b) == fw.singular("create")
  {
    DirBaseOfJoined('/', dir, a + b);
    assert dir + (a + b) == dir + a + b;
    DefaultActionFirstWord(fw, dir + a + b, a, b);
    assert Lower(a) == "create";
  }

  /**
   * A class name `dir` + `a` + `b` of two words and no options: the action is
   * the singular of the lower-cased first word, and the only parameter is
   * `array $inputs`, present exactly when that action is `create` or `update`.
   */
  lemma TwoWordDefaultAction(fw: Framework, inp: Input, dir: string, a: string, b: string)
    requires IsWord(a) && IsWord(b) && IsUpper(b[0]) && '/' !in a + b
    requires dir == "" || Last(dir) == '/'
    requires inp.name == dir + a + b && inp.action == None && inp.model == None
    ensures ActionDefined(inp) && GetAction(fw, inp) == fw.singular(Lower(a))
    ensures ActionDefined(inp) && ActionParameters(fw, inp) ==
              (if TakesInputs(fw.singular(Lower(a))) then [InputsParameter] else [])
    ensures Imports(fw, inp) == []
  {
    DirBaseOfJoined('/', dir, a + b);
    assert dir + (a + b) == inp.name;
    DefaultActionFirstWord(fw, inp.name, a, b);
    assert ActionInput(inp) == "" && ModelInput(inp) == "";
  }

  /**
   * A truthy trimmed `--action` wins whatever the class name; a falsy one
   * ("", "0", blank, or no option at all) falls back to the default.
   */
  lemma ActionOverrideWins(fw: Framework, inp: Input, other: string)
    requires Truthy(ActionInput(inp))
    ensures GetAction(fw, inp) == Trim(inp.action.value)
    ensures GetAction(fw, inp) == GetAction(fw, inp.(name := other))
    ensures IsTrimmed(GetAction(fw, inp))
  {
    TrimIsTrimmed(OptionText(inp.action));
  }

  /**
   * Without a truthy override the action is the singular of the lower-cased
   * first upper-case-split word of the text after the class name's last `/`.
   */
  lemma ActionDefaultUsed(fw: Framework, inp: Input)
    requires !Truthy(ActionInput(inp)) && BaseName('/', inp.name) != ""
    ensures GetAction(fw, inp) == fw.singular(Lower(UcSplit(BaseName('/', inp.name))[0]))
  {
    DefaultActionOfBaseName(fw, inp.name);
  }

  // ---------------------------------------------------------------------
  // Imports and parameters
  // ---------------------------------------------------------------------

  function ModelImport(fw: Framework, model: string): string {
    "use " + fw.qualifyModel(model) + ";"
  }

  /** `getImports`: one `use` line for the model when the model input is truthy. */
  function Imports(fw: Framework, inp: Input): seq<string> {
    if Truthy(ModelInput(inp)) then [ModelImport(fw, ModelInput(inp))] else []
  }

  /** The model parameter `S $s` where `S` is the text after the model's last `\`. */
  function ModelParameter(model: string): string {
    var short := Last(Explode('\\', model));
    short + " $" + Lower(short)
  }

  /** `Str::is(['create', 'update'], $action)`: an exact, case-sensitive match. */
  predicate TakesInputs(action: string) {
    action == "create" || action == "update"
  }

  const InputsParameter: string := "array $inputs"

  /** `getActionParameters`. */
  function ActionParameters(fw: Framework, inp: Input): seq<string>
    requires ActionDefined(inp)
  {
    (if Truthy(ModelInput(inp)) then [ModelParameter(ModelInput(inp))] else []) +
    (if TakesInputs(GetAction(fw, inp)) then [InputsParameter] else [])
  }

  /** `getImports`, building the list by appending. */
  method GetImports(fw: Framework, inp: Input) returns (imports: seq<string>)
    ensures imports == Imports(fw, inp)
  {
    imports := [];
    var model := ModelInput(inp);
    if Truthy(model) {
      imports := imports + ["use " + fw.qualifyModel(model) + ";"];
    }
  }

  /** `getActionParameters`, building the list by appending. */
  method GetActionParameters(fw: Framework, inp: Input) returns (params: seq<string>)
    requires ActionDefined(inp)
    ensures params == ActionParameters(fw, inp)
  {
    params := [];
    var model := ModelInput(inp);
    if Truthy(model) {
      var short := Last(Explode('\\', model));
      params := params + [short + " $" + Lower(short)];
      assert params == [ModelParameter(model)];
    }
    ghost var head := params;
    assert head == (if Truthy(model) then [ModelParameter(model)] else []);
    var action := GetAction(fw, inp);
    if TakesInputs(action) {
      params := params + ["array $inputs"];
    }
    assert params == head + (if TakesInputs(action) then [InputsParameter] else []);
  }

  /** There is exactly one import line when the model input is truthy, none otherwise. */
  lemma ImportsShape(fw: Framework, inp: Input)
    ensures |Imports(fw, inp)| == (if Truthy(ModelInput(inp)) then 1 else 0)
    ensures Truthy(ModelInput(inp)) ==>
              Imports(fw, inp)[0] == "use " + fw.qualifyModel(ModelInput(inp)) + ";"
  {
  }

  /** A model parameter `S $s` has odd length, so it is never `array $inputs`. */
  lemma ModelParameterNotInputs(model: string)
    ensures ModelParameter(model) != InputsParameter
  {
    var short := Last(Explode('\\', model));
    assert |ModelParameter(model)| == 2 * |short| + 2;
  }

  /** The model parameter names the short class and a lower-cased variable. */
  lemma ModelParameterShape(model: string)
    ensures ModelParameter(model) == BaseName('\\', model) + " $" + Lower(BaseName('\\', model))
    ensures '\\' !in BaseName('\\', model)
  {
    ExplodeLast('\\', model);
  }

  /**
   * At most two parameters: the model one first (when the model input is
   * truthy), then `array $inputs` exactly when `getAction()` is `create` or
   * `update`.
   */
  lemma ActionParametersShape(fw: Framework, inp: Input)
    requires ActionDefined(inp)
    ensures var ps := ActionParameters(fw, inp);
            |ps| == (if Truthy(ModelInput(inp)) then 1 else 0) + (if TakesInputs(GetAction(fw, inp)) then 1 else 0)
    ensures Truthy(ModelInput(inp)) ==> ActionParameters(fw, inp)[0] == ModelParameter(ModelInput(inp))
    ensures InputsParameter in ActionParameters(fw, inp) <==> TakesInputs(GetAction(fw, inp))
  {
    ModelParameterNotInputs(ModelInput(inp));
  }

  /** The test is case-sensitive and sees the raw override: `--action=Create` adds no inputs parameter. */
  lemma CapitalisedOverrideTakesNoInputs(fw: Framework, inp: Input)
    requires inp.action == Some("Create")
    ensures ActionDefined(inp) && InputsParameter !in ActionParameters(fw, inp)
  {
    var w := inp.action.value;
    assert ActionInput(inp) == w by {
      assert IsTrimmed(w);
      TrimOfTrimmed(w);
    }
    assert GetAction(fw, inp) == w;
    ActionParametersShape(fw, inp);
  }

  /**
   * Options re-read from their own trimmed values: a model option that is
   * the trimmed model input gives the same model input, and the same imports.
   */
  lemma RetrimmedModelAgrees(fw: Framework, inp: Input, again: Input)
    requires again.model == Some(ModelInput(inp))
    ensures ModelInput(again) == ModelInput(inp)
    ensures Imports(fw, again) == Imports(fw, inp)
  {
    assert ModelInput(again) == Trim(ModelInput(inp));
    TrimIdempotent(OptionText(inp.model));
  }

  /**
   * Options re-read from the resolved action and the trimmed model give the
   * same action and the same parameters, whatever the name, provided the
   * resolved action survives `trim` and is truthy. An override always does
   * (`ActionOverrideWins`); a default does when the inflector's singular
   * of the first word is a truthy, trimmed string.
   */
  lemma RetrimmedActionAgrees(fw: Framework, inp: Input, again: Input)
    requires ActionDefined(inp)
    requires Truthy(GetAction(fw, inp)) && IsTrimmed(GetAction(fw, inp))
    requires again.action == Some(GetAction(fw, inp)) && again.model == Some(ModelInput(inp))
    ensures ActionDefined(again) && GetAction(fw, again) == GetAction(fw, inp)
    ensures ActionDefined(again) && ActionParameters(fw, again) == ActionParameters(fw, inp)
  {
    var a := GetAction(fw, inp);
    assert ActionInput(again) == a by {
      assert ActionInput(again) == Trim(a);
      TrimOfTrimmed(a);
    }
    assert GetAction(fw, again) == a;
    RetrimmedModelAgrees(fw, inp, again);
    var m := ModelInput(inp);
    var ps := (if Truthy(m) then [ModelParameter(m)] else []) + (if TakesInputs(a) then [InputsParameter] else []);
    assert ActionParameters(fw, again) == ps;
    assert ActionParameters(fw, inp) == ps;
  }

  // ---------------------------------------------------------------------
  // Placeholder substitution
  // ---------------------------------------------------------------------

  /** The text `replaceImports` substitutes: the lines framed by newlines, or nothing. */
  function ImportBlock(imports: seq<string>): string {
    if imports == [] then "" else "\n" + Implode("\n", imports) + "\n"
  }

  function ReplaceImports(stub: string, imports: seq<string>): string {
    StrReplace(ImportAliases, ImportBlock(imports), stub)
  }

  function ReplaceAction(fw: Framework, stub: string, action: string): string {
    StrReplace(ActionAliases, ActionValue(fw, action), stub)
  }

  function ReplaceParameters(stub: string, params: seq<string>): string {
    StrReplace(ParameterAliases, Implode(", ", params), stub)
  }

  /**
   * The substitutions of `buildClass` after Laravel's own: imports, then
   * action, then parameters. `imports` is whatever `$this->getImports()`
   * yields for the running command (a subclass adds its own lines).
   */
  function Render(fw: Framework, inp: Input, imports: seq<string>, stub: string): string
    requires ActionDefined(inp)
  {
    ReplaceParameters(
      ReplaceAction(fw, ReplaceImports(stub, imports), GetAction(fw, inp)),
      ActionParameters(fw, inp))
  }

  /**
   * The body of `buildClass` for a given import list: the stub is passed by
   * reference to `replaceImports` and `replaceAction`, then through
   * `replaceParameters`.
   */
  method BuildClassWith(fw: Framework, inp: Input, imports: seq<string>, stub: string) returns (r: string)
    requires ActionDefined(inp)
    ensures r == Render(fw, inp, imports, stub)
  {
    var s := stub;
    s := ScanReplace(ImportAliases, ImportBlock(imports), s);
    s := ScanReplace(ActionAliases, ActionValue(fw, GetAction(fw, inp)), s);
    var params := GetActionParameters(fw, inp);
    r := ScanReplace(ParameterAliases, Implode(", ", params), s);
  }

  /** `buildClass` of `make:iaction`, with its own `getImports`. */
  method BuildClass(fw: Framework, inp: Input, stub: string) returns (r: string)
    requires ActionDefined(inp)
    ensures r == Render(fw, inp, Imports(fw, inp), stub)
  {
    var imports := GetImports(fw, inp);
    r := BuildClassWith(fw, inp, imports, stub);
  }

  /** Each `replace*` is the identity on a stub holding none of its aliases. */
  lemma ReplaceImportsIdentity(stub: string, imports: seq<string>)
    requires forall k :: 0 <= k < |ImportAliases| ==> !Occurs(ImportAliases[k], stub)
    ensures ReplaceImports(stub, imports) == stub
  {
    StrReplaceAbsent(ImportAliases, ImportBlock(imports), stub);
  }

  lemma ReplaceActionIdentity(fw: Framework, stub: string, action: string)
    requires forall k :: 0 <= k < |ActionAliases| ==> !Occurs(ActionAliases[k], stub)
    ensures ReplaceAction(fw, stub, action) == stub
  {
    StrReplaceAbsent(ActionAliases, ActionValue(fw, action), stub);
  }

  lemma ReplaceParametersIdentity(stub: string, params: seq<string>)
    requires forall k :: 0 <= k < |ParameterAliases| ==> !Occurs(ParameterAliases[k], stub)
    ensures ReplaceParameters(stub, params) == stub
  {
    StrReplaceAbsent(ParameterAliases, Implode(", ", params), stub);
  }

  /**
   * A stub that is just one import alias other than `DummyImports` becomes
   * the import block, provided no later alias occurs in that block.
   */
  lemma ImportAliasExpands(k: nat, imports: seq<string>)
    requires k < |ImportAliases| && k != 1
    requires forall j :: k < j < |ImportAliases| ==> !Occurs(ImportAliases[j], ImportBlock(imports))
    ensures ReplaceImports(ImportAliases[k], imports) == ImportBlock(imports)
  {
    forall j | 0 <= j < k
      ensures !Occurs(ImportAliases[j], ImportAliases[k])
    {
      ImportAliasesApart(j, k);
    }
    StrReplaceToken(ImportAliases, k, ImportBlock(imports));
  }

  /**
   * `DummyImport` is tried before `DummyImports`, so a `DummyImports` token
   * becomes the import block followed by a stray `s`.
   */
  lemma DummyImportsLeavesS(imports: seq<string>)
    requires forall j :: 1 <= j < |ImportAliases| ==> !Occurs(ImportAliases[j], ImportBlock(imports) + "s")
    ensures ReplaceImports("DummyImports", imports) == ImportBlock(imports) + "s"
  {
    var b := ImportBlock(imports);
    ReplaceAllFirstOccurrence("", "DummyImport", b, "s");
    assert "" + "DummyImport" + "s" == "DummyImports";
    assert ReplaceAll("s", "DummyImport", b) == "s" by {
      LongerNotOccurs("DummyImport", "s");
      ReplaceAllAbsent("s", "DummyImport", b);
    }
    assert ReplaceAll("DummyImports", ImportAliases[0], b) == b + "s";
    StrReplaceAbsent(ImportAliases[1..], b, b + "s");
  }

  /**
   * With no imports every lone alias is deleted, except `DummyImports`,
   * which leaves its final `s` behind.
   */
  lemma EmptyImportsDeleteAliases(k: nat)
    requires k < |ImportAliases|
    ensures ReplaceImports(ImportAliases[k], []) == if k == 1 then "s" else ""
  {
    forall j | 0 <= j < |ImportAliases|
      ensures !Occurs(ImportAliases[j], "") && !Occurs(ImportAliases[j], "s")
    {
      LongerNotOccurs(ImportAliases[j], "s");
    }
    if k == 1 {
      DummyImportsLeavesS([]);
    } else {
      ImportAliasExpands(k, []);
    }
  }

  /**
   * A lone action alias becomes `singular(lower(action))`; with
   * `GetAction` this is the override when one is given (`ActionOverrideWins`)
   * and the class name's first word otherwise.
   */
  lemma ActionAliasSubstituted(fw: Framework, action: string, k: nat)
    requires k < |ActionAliases|
    requires forall j :: k < j < |ActionAliases| ==> !Occurs(ActionAliases[j], ActionValue(fw, action))
    ensures ReplaceAction(fw, ActionAliases[k], action) == fw.singular(Lower(action))
  {
    forall j | 0 <= j < k
      ensures !Occurs(ActionAliases[j], ActionAliases[k])
    {
      MissingCharNotOccurs(ActionAliases[j], ActionAliases[k], if j == 0 then 'D' else ' ');
    }
    StrReplaceToken(ActionAliases, k, ActionValue(fw, action));
  }

  /**
   * A lone parameter alias becomes the parameters joined by ", ". Here the
   * longer spellings come first, so no alias leaves a remnant.
   */
  lemma ParameterAliasSubstituted(k: nat, params: seq<string>)
    requires k < |ParameterAliases|
    requires forall j :: k < j < |ParameterAliases| ==> !Occurs(ParameterAliases[j], Implode(", ", params))
    ensures ReplaceParameters(ParameterAliases[k], params) == Implode(", ", params)
  {
    forall j | 0 <= j < k
      ensures !Occurs(ParameterAliases[j], ParameterAliases[k])
    {
      ParameterAliasesApart(j, k);
    }
    StrReplaceToken(ParameterAliases, k, Implode(", ", params));
  }

  /** No parameter alias contains an earlier one. */
  lemma ParameterAliasesApart(j: nat, k: nat)
    requires j < k < |ParameterAliases|
    ensures !Occurs(ParameterAliases[j], ParameterAliases[k])
  {
    var a := ParameterAliases;
    if j < 2 && k >= 2 {
      MissingCharNotOccurs(a[j], a[k], 'D');
    } else if (j == 2 || j == 3) && k >= 4 {
      MissingCharNotOccurs(a[j], a[k], ' ');
    } else {
      assert (j == 0 && k == 1) || (j == 2 && k == 3) || (j == 4 && k == 5);
      LongerNotOccurs(a[j], a[k]);
    }
  }

  /**
   * Later substitutions see the text earlier ones produced: an import line
   * that happens to read `DummyAction` is itself replaced by the action.
   */
  lemma LaterStepsSeeEarlierOutput(fw: Framework, action: string)
    requires '{' !in ActionValue(fw, action)
    ensures ReplaceAction(fw, ReplaceImports("{{ imports }}", ["DummyAction"]), action)
            == "\n" + ActionValue(fw, action) + "\n"
  {
    var v := ActionValue(fw, action);
    DummyActionImportLine();
    var out := "\n" + v + "\n";
    assert ReplaceAll("\n" + "DummyAction" + "\n", ActionAliases[0], v) == out by {
      ReplaceAllFirstOccurrence("\n", "DummyAction", v, "\n");
      LongerNotOccurs("DummyAction", "\n");
      ReplaceAllAbsent("\n", "DummyAction", v);
    }
    forall j | 0 < j < |ActionAliases|
      ensures !Occurs(ActionAliases[j], out)
    {
      MissingCharNotOccurs(ActionAliases[j], out, '{');
    }
    StrReplaceAbsent(ActionAliases[1..], v, out);
  }

  /** An import list holding the single line `DummyAction` expands `{{ imports }}` to that line. */
  lemma DummyActionImportLine()
    ensures ReplaceImports("{{ imports }}", ["DummyAction"]) == "\n" + "DummyAction" + "\n"
  {
    var b := "\n" + "DummyAction" + "\n";
    assert ImportBlock(["DummyAction"]) == b;
    forall j | 3 < j < |ImportAliases|
      ensures !Occurs(ImportAliases[j], b)
    {
      MissingCharNotOccurs(ImportAliases[j], b, '{');
    }
    ImportAliasExpands(3, ["DummyAction"]);
  }

  /** No import alias contains an earlier one, except `DummyImports`, which contains `DummyImport`. */
  lemma ImportAliasesApart(j: nat, k: nat)
    requires j < k < |ImportAliases| && k != 1
    ensures !Occurs(ImportAliases[j], ImportAliases[k])
  {
    var a := ImportAliases;
    if j < 2 {
      MissingCharNotOccurs(a[j], a[k], 'D');
    } else if k >= 4 && j < 4 {
      MissingCharNotOccurs(a[j], a[k], ' ');
    } else if j == 2 {
      // "{{ import }}" against "{{ imports }}"
      assert k == 3;
      OneShorterNotOccurs(a[j], a[k], 10, 1);
    } else {
      // "{{import}}" against "{{imports}}"
      assert j == 4 && k == 5;
      OneShorterNotOccurs(a[j], a[k], 8, 1);
    }
  }
}

=== FILE: php_string.dfy ===
/** The stock Option datatype, used for console options that may be absent. */
module Wrappers {
  datatype Option<T> = None | Some(value: T)
}

/**
 * The PHP and Laravel string built-ins the generator commands rely on:
 * `trim`, `strtolower`, `explode`/`implode`, `last`, `Str::ucsplit` and the
 * array form of `str_replace`. Everything is over `string` (= `seq<char>`);
 * letter case is ASCII only.
 */
module PhpString {

  // ---------------------------------------------------------------------
  // Characters
  // ---------------------------------------------------------------------

  predicate IsUpper(c: char) { 'A' <= c <= 'Z' }

  /** The characters PHP's `trim` strips by default: " \t\n\r\0\x0B". */
  predicate IsTrimmable(c: char) {
    c == ' ' || c == '\t' || c == '\n' || c == '\r' || c == '\0' || c == '\U{000B}'
  }

  function LowerChar(c: char): (r: char)
    ensures !IsUpper(r)
    ensures !IsUpper(c) ==> r == c
  {
    if IsUpper(c) then (c as int + 32) as char else c
  }

  /** `strtolower` (and, for ASCII text, `Str::lower`). */
  function Lower(s: string): (r: string)
    ensures |r| == |s|
    ensures forall i :: 0 <= i < |s| ==> r[i] == LowerChar(s[i])
  {
    seq(|s|, i requires 0 <= i < |s| => LowerChar(s[i]))
  }

  lemma LowerIsLowerCase(s: string)
    ensures forall i :: 0 <= i < |s| ==> !IsUpper(Lower(s)[i])
    ensures Lower(Lower(s)) == Lower(s)
  {
  }

  // ---------------------------------------------------------------------
  // trim and PHP truthiness
  // ---------------------------------------------------------------------

  function TrimStart(s: string): (r: string)
    ensures |r| <= |s| && r == s[|s| - |r|..]
    ensures r == "" || !IsTrimmable(r[0])
  {
    if s != "" && IsTrimmable(s[0]) then TrimStart(s[1..]) else s
  }

  function TrimEnd(s: string): (r: string)
    ensures |r| <= |s| && r == s[..|r|]
    ensures r == "" || !IsTrimmable(r[|r| - 1])
  {
    if s != "" && IsTrimmable(s[|s| - 1]) then TrimEnd(s[..|s| - 1]) else s
  }

  /** What `TrimStart` drops is whitespace. */
  lemma {:induction false} TrimStartDropsWhitespace(s: string)
    ensures forall i :: 0 <= i < |s| - |TrimStart(s)| ==> IsTrimmable(s[i])
  {
    if s != "" && IsTrimmable(s[0]) {
      TrimStartDropsWhitespace(s[1..]);
      forall i | 1 <= i < |s| - |TrimStart(s)|
        ensures IsTrimmable(s[i])
      {
        assert s[i] == s[1..][i - 1];
      }
    }
  }

  /** What `TrimEnd` drops is whitespace. */
  lemma {:induction false} TrimEndDropsWhitespace(s: string)
    ensures forall i :: |TrimEnd(s)| <= i < |s| ==> IsTrimmable(s[i])
  {
    if s != "" && IsTrimmable(s[|s| - 1]) {
      TrimEndDropsWhitespace(s[..|s| - 1]);
      forall i | |TrimEnd(s)| <= i < |s| - 1
        ensures IsTrimmable(s[i])
      {
        assert s[i] == s[..|s| - 1][i];
      }
    }
  }

  /** PHP `trim`: strip default whitespace from both ends. */
  function Trim(s: string): (r: string)
  {
    TrimEnd(TrimStart(s))
  }

  /** A string with no strippable character at either end. */
  predicate IsTrimmed(s: string) {
    s == "" || (!IsTrimmable(s[0]) && !IsTrimmable(s[|s| - 1]))
  }

  /** A suffix `t` of `s`, and a prefix `r` of `t` that leaves only whitespace behind. */
  lemma SliceOfSuffix(s: string, t: string, r: string)
    requires |t| <= |s| && t == s[|s| - |t|..]
    requires |r| <= |t| && r == t[..|r|]
    requires forall i :: |r| <= i < |t| ==> IsTrimmable(t[i])
    ensures r == s[|s| - |t|..|s| - |t| + |r|]
    ensures forall i :: |s| - |t| + |r| <= i < |s| ==> IsTrimmable(s[i])
  {
    var k := |s| - |t|;
    forall i | k + |r| <= i < |s|
      ensures IsTrimmable(s[i])
    {
      assert s[i] == t[i - k];
    }
  }

  /** `trim` leaves no whitespace at either end. */
  lemma TrimIsTrimmed(s: string)
    ensures IsTrimmed(Trim(s))
  {
    var t := TrimStart(s);
    var r := TrimEnd(t);
    assert r != "" ==> r[0] == t[0];
  }

  /**
   * `trim` returns the slice of its argument between two runs of
   * whitespace.
   */
  lemma TrimIsInnerSlice(s: string)
    ensures |TrimStart(s)| >= |Trim(s)|
    ensures Trim(s) == s[|s| - |TrimStart(s)|..|s| - |TrimStart(s)| + |Trim(s)|]
    ensures forall i :: 0 <= i < |s| - |TrimStart(s)| ==> IsTrimmable(s[i])
    ensures forall i :: |s| - |TrimStart(s)| + |Trim(s)| <= i < |s| ==> IsTrimmable(s[i])
  {
    var t := TrimStart(s);
    var r := TrimEnd(t);
    TrimStartDropsWhitespace(s);
    TrimEndDropsWhitespace(t);
    SliceOfSuffix(s, t, r);
  }

  /** A string that is already trimmed is left alone by `trim`. */
  lemma {:induction false} TrimOfTrimmed(s: string)
    requires IsTrimmed(s)
    ensures Trim(s) == s
  {
    assert TrimStart(s) == s;
    assert TrimEnd(s) == s;
  }

  /** `trim` is idempotent. */
  lemma TrimIdempotent(s: string)
    ensures Trim(Trim(s)) == Trim(s)
  {
    TrimIsTrimmed(s);
    TrimOfTrimmed(Trim(s));
  }

  /** PHP truthiness of a string: everything except "" and "0" is true. */
  predicate Truthy(s: string) { s != "" && s != "0" }

  // ---------------------------------------------------------------------
  // explode, implode, last
  // ---------------------------------------------------------------------

  function Last<T>(xs: seq<T>): T
    requires |xs| > 0
  {
    xs[|xs| - 1]
  }

  /** `explode(sep, s)` for a one-character separator. */
  function Explode(sep: char, s: string): (parts: seq<string>)
    ensures |parts| >= 1
    ensures forall p :: p in parts ==> sep !in p
  {
    if s == "" then [""]
    else
      var init := Explode(sep, s[..|s| - 1]);
      var c := s[|s| - 1];
      if c == sep then init + [""]
      else init[..|init| - 1] + [Last(init) + [c]]
  }

  /** `implode(glue, parts)`. */
  function Implode(glue: string, parts: seq<string>): string
  {
    if |parts| == 0 then ""
    else if |parts| == 1 then parts[0]
    else Implode(glue, parts[..|parts| - 1]) + glue + Last(parts)
  }

  /** `s` with every occurrence of `from` replaced by `to`. */
  function Translate(s: string, from: char, to: char): (r: string)
    ensures |r| == |s|
    ensures forall i :: 0 <= i < |s| ==> r[i] == (if s[i] == from then to else s[i])
  {
    if s == "" then ""
    else Translate(s[..|s| - 1], from, to) + [if Last(s) == from then to else Last(s)]
  }

  /**
   * The index just after the last `sep` in `s` (0 when there is none): the
   * only index with a separator right before it and none after it.
   */
  function SeparatorEnd(sep: char, s: string): (k: nat)
    ensures k <= |s|
    ensures k == 0 || s[k - 1] == sep
    ensures forall i :: k <= i < |s| ==> s[i] != sep
  {
    if s == "" then 0
    else if Last(s) == sep then |s|
    else SeparatorEnd(sep, s[..|s| - 1])
  }

  /** The text after the last `sep`. */
  function BaseName(sep: char, s: string): string {
    s[SeparatorEnd(sep, s)..]
  }

  /** The text up to and including the last `sep`. */
  function DirName(sep: char, s: string): string {
    s[..SeparatorEnd(sep, s)]
  }

  lemma SeparatorEndUnique(sep: char, s: string, k: nat)
    requires k <= |s|
    requires k == 0 || s[k - 1] == sep
    requires forall i :: k <= i < |s| ==> s[i] != sep
    ensures SeparatorEnd(sep, s) == k
  {
  }

  /** A directory part ending in `sep`, followed by separator-free text, splits back into the two. */
  lemma DirBaseOfJoined(sep: char, dir: string, rest: string)
    requires dir == "" || Last(dir) == sep
    requires sep !in rest
    ensures DirName(sep, dir + rest) == dir && BaseName(sep, dir + rest) == rest
  {
    var s := dir + rest;
    forall i | |dir| <= i < |s|
      ensures s[i] != sep
    {
      assert s[i] == rest[i - |dir|];
    }
    SeparatorEndUnique(sep, s, |dir|);
  }

  /** `last(explode(sep, s))` is the text after the last separator. */
  lemma {:induction false} ExplodeLast(sep: char, s: string)
    ensures Last(Explode(sep, s)) == BaseName(sep, s)
  {
    if s != "" {
      ExplodeLast(sep, s[..|s| - 1]);
      var t := s[..|s| - 1];
      if Last(s) != sep {
        assert SeparatorEnd(sep, s) == SeparatorEnd(sep, t);
        assert s[SeparatorEnd(sep, s)..] == t[SeparatorEnd(sep, t)..] + [Last(s)];
      }
    }
  }

  lemma ImplodeAppend(glue: string, parts: seq<string>, y: string)
    requires |parts| >= 1
    ensures Implode(glue, parts + [y]) == Implode(glue, parts) + glue + y
  {
    assert (parts + [y])[..|parts|] == parts;
  }

  lemma {:induction false} ImplodeExtendLast(glue: string, parts: seq<string>, y: string)
    requires |parts| >= 1
    ensures Implode(glue, parts[..|parts| - 1] + [Last(parts) + y]) == Implode(glue, parts) + y
  {
    var init := parts[..|parts| - 1];
    if |parts| > 1 {
      ImplodeAppend(glue, init, Last(parts) + y);
      ImplodeAppend(glue, init, Last(parts));
      assert init + [Last(parts)] == parts;
    }
  }

  /** Joining the pieces of `explode(sep, s)` with `to` turns every `sep` into `to`. */
  lemma {:induction false} ImplodeExplodeTranslate(sep: char, to: char, s: string)
    ensures Implode([to], Explode(sep, s)) == Translate(s, sep, to)
  {
    if s != "" {
      var t := s[..|s| - 1];
      var pt := Explode(sep, t);
      ImplodeExplodeTranslate(sep, to, t);
      if Last(s) == sep {
        assert Explode(sep, s) == pt + [""];
        ImplodeAppend([to], pt, "");
      } else {
        assert Explode(sep, s) == pt[..|pt| - 1] + [Last(pt) + [Last(s)]];
        ImplodeExtendLast([to], pt, [Last(s)]);
      }
    }
  }

  /**
   * Joining the pieces of `explode(sep, s)` but the last with `to`, then
   * appending any `y`, yields the directory part of `s` with every `sep`
   * turned into `to`, followed by `y`.
   */
  lemma {:induction false} ImplodeExplodeInit(sep: char, to: char, s: string, y: string)
    ensures var parts := Explode(sep, s);
            Implode([to], parts[..|parts| - 1] + [y]) == Translate(DirName(sep, s), sep, to) + y
  {
    if s != "" {
      var t := s[..|s| - 1];
      if Last(s) == sep {
        ImplodeExplodeInitSep(sep, to, s, y);
      } else {
        var pt := Explode(sep, t);
        var init := pt[..|pt| - 1];
        assert Explode(sep, s) == init + [Last(pt) + [Last(s)]];
        assert (init + [Last(pt) + [Last(s)]])[..|init|] == init;
        ImplodeExplodeInit(sep, to, t, y);
        assert SeparatorEnd(sep, s) == SeparatorEnd(sep, t);
        assert DirName(sep, s) == DirName(sep, t);
      }
    }
  }

  lemma ImplodeExplodeInitSep(sep: char, to: char, s: string, y: string)
    requires s != "" && Last(s) == sep
    ensures var parts := Explode(sep, s);
            Implode([to], parts[..|parts| - 1] + [y]) == Translate(DirName(sep, s), sep, to) + y
  {
    var t := s[..|s| - 1];
    var pt := Explode(sep, t);
    assert Explode(sep, s) == pt + [""];
    assert (pt + [""])[..|pt|] == pt;
    ImplodeAppend([to], pt, y);
    ImplodeExplodeTranslate(sep, to, t);
    assert DirName(sep, s) == s;
  }

  lemma TranslateSame(s: string, c: char)
    ensures Translate(s, c, c) == s
  {
  }

  /** Round trip: `implode(sep, explode(sep, s)) == s`. */
  lemma ImplodeExplode(sep: char, s: string)
    ensures Implode([sep], Explode(sep, s)) == s
  {
    ImplodeExplodeTranslate(sep, sep, s);
    TranslateSame(s, sep);
  }

  /** Appending separator-free text extends the last piece only. */
  lemma {:induction false} ExplodeAppendPlain(sep: char, s: string, t: string)
    requires sep !in t
    ensures var ps := Explode(sep, s);
            Explode(sep, s + t) == ps[..|ps| - 1] + [Last(ps) + t]
    decreases |t|
  {
    var ps := Explode(sep, s);
    if t == "" {
      assert s + t == s;
      assert Last(ps) + t == Last(ps);
      assert ps[..|ps| - 1] + [Last(ps)] == ps;
    } else {
      var t' := t[..|t| - 1];
      ExplodeAppendPlain(sep, s, t');
      assert (s + t)[..|s + t| - 1] == s + t';
      var qs := Explode(sep, s + t');
      assert qs == ps[..|ps| - 1] + [Last(ps) + t'];
      assert qs[..|qs| - 1] == ps[..|ps| - 1];
      assert Last(ps) + t' + [Last(t)] == Last(ps) + t;
    }
  }

  /** A separator followed by separator-free text starts exactly one new piece. */
  lemma ExplodeAfterSeparator(sep: char, h: string, p: string)
    requires sep !in p
    ensures Explode(sep, h + [sep] + p) == Explode(sep, h) + [p]
  {
    var hs := h + [sep];
    assert hs[..|hs| - 1] == h;
    var ph := Explode(sep, h);
    assert Explode(sep, hs) == ph + [""];
    ExplodeAppendPlain(sep, hs, p);
    assert (ph + [""])[..|ph|] == ph;
    assert "" + p == p;
  }

  /** Round trip: `explode(sep, implode(sep, parts)) == parts` for separator-free pieces. */
  lemma {:induction false} ExplodeImplode(sep: char, parts: seq<string>)
    requires |parts| >= 1
    requires forall i :: 0 <= i < |parts| ==> sep !in parts[i]
    ensures Explode(sep, Implode([sep], parts)) == parts
  {
    if |parts| == 1 {
      ExplodeAppendPlain(sep, "", parts[0]);
      assert "" + parts[0] == parts[0];
    } else {
      var init := parts[..|parts| - 1];
      ExplodeImplode(sep, init);
      ExplodeAfterSeparator(sep, Implode([sep], init), Last(parts));
      assert init + [Last(parts)] == parts;
    }
  }

  // ---------------------------------------------------------------------
  // Str::ucsplit
  // ---------------------------------------------------------------------

  function Concat(words: seq<string>): string {
    if words == [] then "" else words[0] + Concat(words[1..])
  }

  /** A piece of an upper-case split: non-empty, no upper-case letter after its first character. */
  predicate IsWord(w: string) {
    w != "" && forall j :: 0 < j < |w| ==> !IsUpper(w[j])
  }

  /** Pieces as `Str::ucsplit` produces them: words, every one but the first starting upper-case. */
  predicate IsUcSplit(words: seq<string>) {
    (forall i :: 0 <= i < |words| ==> IsWord(words[i])) &&
    (forall i :: 0 < i < |words| ==> IsUpper(words[i][0]))
  }

  /**
   * `Str::ucsplit(s)`: split before every upper-case letter and drop the
   * empty pieces. The pieces put back together are `s`.
   */
  function UcSplit(s: string): (words: seq<string>)
    ensures Concat(words) == s
    ensures IsUcSplit(words)
    ensures s != "" <==> |words| > 0
  {
    if s == "" then []
    else
      var rest := UcSplit(s[1..]);
      if rest == [] then [[s[0]]]
      else
        assert |Concat(rest)| >= |rest[0]| > 0;
        assert s[1] == rest[0][0];
        if IsUpper(s[1]) then [[s[0]]] + rest
        else [[s[0]] + rest[0]] + rest[1..]
  }

  /** Splitting a word followed by text that starts a new word splits the word off. */
  lemma {:induction false} UcSplitPrepend(w: string, t: string)
    requires IsWord(w)
    requires t == "" || IsUpper(t[0])
    ensures UcSplit(w + t) == [w] + UcSplit(t)
    decreases |w|
  {
    var s := w + t;
    assert s[1..] == w[1..] + t;
    if |w| == 1 {
      assert s[1..] == t;
    } else {
      UcSplitPrepend(w[1..], t);
      assert s[1] == w[1];
      assert [s[0]] + w[1..] == w;
    }
  }

  /** Round trip: `ucsplit` recovers any properly split word list from its concatenation. */
  lemma {:induction false} UcSplitConcat(words: seq<string>)
    requires IsUcSplit(words)
    ensures UcSplit(Concat(words)) == words
  {
    if words != [] {
      var tail := words[1..];
      assert IsUcSplit(tail);
      UcSplitConcat(tail);
      if tail != [] {
        assert Concat(tail)[0] == tail[0][0];
      }
      UcSplitPrepend(words[0], Concat(tail));
    }
  }

  /** Two words, the second starting upper-case, split back into those two words. */
  lemma UcSplitTwoWords(a: string, b: string)
    requires IsWord(a) && IsWord(b) && IsUpper(b[0])
    ensures UcSplit(a + b) == [a, b]
  {
    UcSplitPrepend(b, "");
    assert b + "" == b;
    UcSplitPrepend(a, b);
  }

  /** The first piece of `ucsplit(w + t)` is `w` when `t` starts a new word. */
  lemma FirstWord(w: string, t: string)
    requires IsWord(w)
    requires t == "" || IsUpper(t[0])
    ensures UcSplit(w + t)[0] == w
  {
    UcSplitPrepend(w, t);
  }

  /** `implode('', array_map(f, words))`. */
  function ConcatMap(f: string -> string, words: seq<string>): string {
    if words == [] then "" else f(words[0]) + ConcatMap(f, words[1..])
  }

  lemma ConcatMapTwo(f: string -> string, a: string, b: string)
    ensures ConcatMap(f, [a, b]) == f(a) + f(b)
  {
    assert [a, b][1..] == [b] && [b][1..] == [];
    assert ConcatMap(f, [b]) == f(b) + "";
  }

  // ---------------------------------------------------------------------
  // str_replace
  // ---------------------------------------------------------------------

  /** `needle` occurs somewhere in `s` as a substring. */
  predicate Occurs(needle: string, s: string)
    decreases |s|
  {
    |needle| <= |s| && (needle <= s || Occurs(needle, s[1..]))
  }

  /**
   * `str_replace(needle, rep, s)` for one needle: scan left to right,
   * replace each non-overlapping occurrence and continue after it, so that
   * the replacement text is never scanned again. An empty needle changes
   * nothing (PHP skips empty search strings).
   */
  function ReplaceAll(s: string, needle: string, rep: string): string
    decreases |s|
  {
    if needle == "" || s == "" then s
    else if needle <= s then rep + ReplaceAll(s[|needle|..], needle, rep)
    else [s[0]] + ReplaceAll(s[1..], needle, rep)
  }

  /**
   * `str_replace([n0, n1, ...], rep, s)`: the needles are applied one after
   * another, each to the output of the previous one.
   */
  function StrReplace(needles: seq<string>, rep: string, s: string): string
  {
    if needles == [] then s else StrReplace(needles[1..], rep, ReplaceAll(s, needles[0], rep))
  }

  /** A needle that does not occur changes nothing. */
  lemma {:induction false} ReplaceAllAbsent(s: string, needle: string, rep: string)
    requires !Occurs(needle, s)
    ensures ReplaceAll(s, needle, rep) == s
    decreases |s|
  {
    if needle != "" && s != "" {
      assert !(needle <= s);
      ReplaceAllAbsent(s[1..], needle, rep);
    }
  }

  /** A stub that is exactly the needle becomes exactly the replacement. */
  lemma ReplaceAllWhole(needle: string, rep: string)
    requires needle != ""
    ensures ReplaceAll(needle, needle, rep) == rep
  {
    assert needle[|needle|..] == "";
  }

  /**
   * When the text before the first occurrence cannot even start the needle,
   * that occurrence is replaced and the scan resumes right after it.
   */
  lemma {:induction false} ReplaceAllFirstOccurrence(pre: string, needle: string, rep: string, post: string)
    requires needle != ""
    requires forall i :: 0 <= i < |pre| ==> pre[i] != needle[0]
    ensures ReplaceAll(pre + needle + post, needle, rep) == pre + rep + ReplaceAll(post, needle, rep)
    decreases |pre|
  {
    var s := pre + needle + post;
    var tail := ReplaceAll(post, needle, rep);
    if pre == "" {
      assert s == needle + post;
      assert s[|needle|..] == post;
    } else {
      assert ReplaceAll(s, needle, rep) == [pre[0]] + ReplaceAll(s[1..], needle, rep) by {
        assert s[0] == pre[0];
        assert !(needle <= s);
      }
      assert s[1..] == pre[1..] + needle + post;
      ReplaceAllFirstOccurrence(pre[1..], needle, rep, post);
      var p1 := pre[1..];
      assert [pre[0]] + p1 == pre;
      assert [pre[0]] + ((p1 + rep) + tail) == ([pre[0]] + (p1 + rep)) + tail;
      assert [pre[0]] + (p1 + rep) == ([pre[0]] + p1) + rep;
    }
  }

  /** A needle with a character that `s` lacks does not occur in `s`. */
  lemma {:induction false} MissingCharNotOccurs(needle: string, s: string, c: char)
    requires c in needle && c !in s
    ensures !Occurs(needle, s)
    decreases |s|
  {
    if |needle| <= |s| {
      MissingCharNotOccurs(needle, s[1..], c);
    }
  }

  /** A needle longer than `s` does not occur in it. */
  lemma LongerNotOccurs(needle: string, s: string)
    requires |needle| > |s|
    ensures !Occurs(needle, s)
  {
  }

  /**
   * A needle one character shorter than `s` occurs in it only as a prefix
   * or as the suffix after the first character.
   */
  lemma OneShorterNotOccurs(needle: string, s: string, i: nat, j: nat)
    requires |s| == |needle| + 1
    requires i < |needle| && needle[i] != s[i]
    requires j < |needle| && needle[j] != s[j + 1]
    ensures !Occurs(needle, s)
  {
    assert !(needle <= s);
    assert !(needle <= s[1..]) by {
      assert s[1..][j] == s[j + 1];
    }
    LongerNotOccurs(needle, s[1..][1..]);
  }

  /** `str_replace` with an array of needles is the identity when none occurs. */
  lemma {:induction false} StrReplaceAbsent(needles: seq<string>, rep: string, s: string)
    requires forall k :: 0 <= k < |needles| ==> !Occurs(needles[k], s)
    ensures StrReplace(needles, rep, s) == s
  {
    if needles != [] {
      ReplaceAllAbsent(s, needles[0], rep);
      StrReplaceAbsent(needles[1..], rep, s);
    }
  }

  /**
   * A stub that is exactly the `k`-th needle ends up as exactly the
   * replacement, provided no earlier needle occurs in that token and no
   * later needle occurs in the replacement (later needles do rescan it).
   */
  lemma {:induction false} StrReplaceToken(needles: seq<string>, k: nat, rep: string)
    requires k < |needles| && needles[k] != ""
    requires forall j :: 0 <= j < k ==> !Occurs(needles[j], needles[k])
    requires forall j :: k < j < |needles| ==> !Occurs(needles[j], rep)
    ensures StrReplace(needles, rep, needles[k]) == rep
  {
    if k == 0 {
      ReplaceAllWhole(needles[0], rep);
      StrReplaceAbsent(needles[1..], rep, rep);
    } else {
      ReplaceAllAbsent(needles[k], needles[0], rep);
      StrReplaceToken(needles[1..], k - 1, rep);
    }
  }

  /** The scan-and-rebuild loop behind `str_replace` for one needle. */
  method ScanReplaceAll(s: string, needle: string, rep: string) returns (r: string)
    ensures r == ReplaceAll(s, needle, rep)
  {
    if needle == "" {
      return s;
    }
    r := "";
    var i := 0;
    while i < |s|
      invariant 0 <= i <= |s|
      invariant r + ReplaceAll(s[i..], needle, rep) == ReplaceAll(s, needle, rep)
    {
      if needle <= s[i..] {
        var rest := ReplaceAll(s[i + |needle|..], needle, rep);
        assert ReplaceAll(s[i..], needle, rep) == rep + rest by {
          assert s[i..][|needle|..] == s[i + |needle|..];
        }
        assert r + (rep + rest) == (r + rep) + rest;
        r := r + rep;
        i := i + |needle|;
      } else {
        var rest := ReplaceAll(s[i + 1..], needle, rep);
        assert ReplaceAll(s[i..], needle, rep) == [s[i]] + rest by {
          assert s[i..][1..] == s[i + 1..];
        }
        assert r + ([s[i]] + rest) == (r + [s[i]]) + rest;
        r := r + [s[i]];
        i := i + 1;
      }
    }
  }

  /** `str_replace` with an array of needles: one scan per needle, in list order. */
  method ScanReplace(needles: seq<string>, rep: string, subject: string) returns (r: string)
    ensures r == StrReplace(needles, rep, subject)
  {
    r := subject;
    for k := 0 to |needles|
      invariant StrReplace(needles[k..], rep, r) == StrReplace(needles, rep, subject)
    {
      assert needles[k..][1..] == needles[k + 1..];
      r := ScanReplaceAll(r, needles[k], rep);
    }
  }
}
